=== FILE: README.md ===
# Dangeon console game — a Dafny model of its core

This project models the game logic of a small console role-playing game
written in C. It does not model the terminal. The model covers five pieces:

- **Save slots** (`salvataggi.c`). The game keeps one file per slot, named
  `save<i>.dat`. The model treats this directory as a map from slot index to
  record (`Saves.Cartella`). It covers:
  - the slot count: the run of files 1, 2, … up to the first gap;
  - upsert by hero name;
  - guarded read by index;
  - delete with compaction of the higher slots;
  - the two hero/record conversions.

  The slot-choice input classifier of `chiediSalvataggioDaCaricare` is in
  `SaveChoice`.
- **Hero arithmetic** (`eroe.c`), in `Hero`:
  - default initialisation;
  - coin and health changes clamped at zero;
  - the name read by `fgets` into a 25-byte buffer, with its newline removed.
- **Missions** (`missioni.c`), in `Missions`:
  - four missions with completed, unlocked and objective counters;
  - idempotent completion, and the final mission unlocking once the three
    preliminary missions are done;
  - the saturating objective counter;
  - the numbered menu of available missions;
  - the rule for returning to the village: free, 50 coins, or refused.
- **Cheat keys** (`trucchi.c`), in `Cheats`:
  - which keys the main menu accepts in each mode;
  - the exact match against the code `wwssadadba`.
- **Main menu and cheat menu** (`menu.c`), in `Menu`:
  - the cheat-sequence buffer, which collects keys until a space and latches
    the cheats-active flag;
  - the cheat menu's edit-and-resave of a slot.

Shared C string and stdio behaviour is in `Common`: `strcmp`, `strncpy`
with a terminator, cutting at the first newline, `fgets` and the newline
strip after it. A C string is modelled as the characters before its
terminator, and one model character stands for one C `char`, that is one
byte. So the 24- and 15-character cuts are the byte counts `fgets` applies.
Input is taken to be single-byte text: a multi-byte character would occupy
several C `char`s and is not modelled.

Where the header comments and the C code disagree, the model follows the code:

- `salvataggi.h` declares a `crc32` field and promises checksum verification
  and migration of an older format. `salvataggi.c` computes no checksum,
  checks none and migrates nothing: records are written and read whole. The
  field is kept, and the conversion leaves it zero.
- `salvataggi.h` says `creaSalvataggioDaEroe` does not set the timestamp and
  `salvaGioco` does. In the code it is the other way round:
  `creaSalvataggioDaEroe` stamps the record (`time(NULL)`, here the parameter
  `ora`), and `salvaGioco` stores the record as given.

Where the code returns a boolean or a sentinel, the model does too (`-1`,
`MISSIONE_NESSUNA`). Four places use a datatype instead. `GetMissione`
returns an `Option` where `getMissione` returns a NULL pointer for a type
outside 0..3. Reading a slot returns an `Option`. The slot-choice check returns a `Scelta`, whose
`NonValido` and `FuoriIntervallo` stand for the two cases where the C loop
prints an error and asks again. A mission run returns an `Esecuzione`,
which separates a refused start from the return value of a finished run.

Keys typed at a prompt are modelled as characters. `leggiCaratterePulito`
and the `getchar` loops keep the first character of a line and discard the
rest of it, so each key stands for one non-empty line of input. The seven modules are one file each:

- `common.dfy`
- `hero.dfy`
- `cheats.dfy`
- `saves.dfy`
- `save_choice.dfy`
- `missions.dfy`
- `menu.dfy`

## Model

| member | source | states |
|---|---|---|
| `Common.Strcmp` | salvataggi.c:46 | the sign of `strcmp` is zero exactly when the two strings are equal, and lies in -1..1 |
| `Common.Tronca` | missioni.c:22-25 | `strncpy` with a terminator at n keeps the prefix of exactly min(n, length) characters |
| `Common.PrimaRiga` | salvataggi.c:181 | cutting at `strcspn(s, "\n")` gives a newline-free prefix, ended by a newline or by the end of the input |
| `Common.Fgets` | eroe.c:54 | `fgets` returns a prefix of the input of at most size - 1 characters; only its last character may be a newline; a read that stops early ends at a newline |
| `Common.RimuoviNewline` | eroe.c:59-63 | exactly one trailing newline is removed if present; otherwise the string is unchanged |
| `Common.NomeLettoEPrimaRiga` | eroe.c:54-63 | `fgets` followed by the newline strip equals the first line cut to size - 1 characters |
| `Common.PrimaRigaDiFgets` | salvataggi.c:176-181 | `fgets` followed by the cut at the first newline also equals the first line cut to size - 1 characters |
| `Hero.InizializzaEroe` | eroe.c:17-22 | a new hero has the given name, 20 health and zero coins, missions and items |
| `Hero.ModificaMonete` | eroe.c:66-74 | coins become max(0, coins + delta), no other field changes, and the change is exactly delta when nothing is clamped |
| `Hero.ModificaVita` | eroe.c:77-88 | health becomes max(0, health + delta), no other field changes, and the change is exactly delta when nothing is clamped |
| `Hero.ModificheConservanoStatistiche` | eroe.c:70-87 | whatever the delta, both adjustments keep every counter of a valid hero non-negative |
| `Hero.GuadagnoPoiPerditaRipristina` | eroe.c:70-87 | gaining then losing the same amount gives back the original hero |
| `Hero.DichiaraNomeEroe` | eroe.c:49-64 | the name entered is the first input line cut to 24 characters: no newline, shorter than the 25-byte buffer |
| `Cheats.Occorre` | trucchi.c:7-14 | the scan finds `c` exactly when it occurs at some position of the string |
| `Cheats.CarattereTruccoValido` | trucchi.c:7-14 | a key belongs to the code exactly when it is one of w, s, a, d, b |
| `Cheats.ConfrontoString` | trucchi.c:16-18 | true exactly when the input equals "wwssadadba" |
| `Cheats.CarattereValido` | trucchi.c:20-34 | with cheats on, exactly 1, 2 and 3 are accepted; with cheats off, exactly 1, 2, space, 0 and the code's keys |
| `Cheats.CodiceDigitabile` | trucchi.c:20-34 | every key of the code is accepted while cheats are off; 3 needs cheats on, and 0 needs them off |
| `Saves.SerieDa` | salvataggi.c:77-86 | the probe from slot k counts n slots k..k+n-1, all present, and stops at the absent slot k+n |
| `Saves.ContaSalvataggi` | salvataggi.c:70-88 | slots 1..count are present, slot count+1 is absent, and no gap lies at or below the count |
| `Saves.ContaUnica` | salvataggi.c:73-87 | the count is the unique N with slots 1..N present and slot N+1 absent |
| `Saves.ContaContigua` | salvataggi.c:73-87 | a directory holding exactly slots 1..N has count N |
| `Saves.PrimaCorrispondenza` | salvataggi.c:40-56 | the scan returns the lowest slot in the range whose record's name matches, or none when no slot matches |
| `Saves.SalvaGioco` | salvataggi.c:30-68 | if the first slot among 1..count with the record's name is i, slot i is overwritten and nothing else changes; with no match, the record goes to slot count+1 and no existing slot changes |
| `Saves.SalvaGiocoConta` | salvataggi.c:37-65 | an update keeps the count; an append adds one slot and joins any run of files past the old gap; the count grows by exactly one when no file lies just past that gap |
| `Saves.SalvaGiocoInvariante` | salvataggi.c:40-65 | on a directory holding exactly 1..N with distinct names, a save leaves exactly 1..N (update) or 1..N+1 (append), and the names stay distinct |
| `Saves.SalvaGiocoDueVolte` | salvataggi.c:40-65 | saving twice under one name equals saving the second record once, and the second save does not change the count |
| `Saves.SalvaGiocoPoiLeggi` | salvataggi.c:30-101 | after a save, some counted slot reads back exactly the saved record |
| `Saves.SalvaOltreBucoDuplicaNome` | salvataggi.c:37-65 | with save1 and save3 present and save2 missing, saving the name held in save3 writes save2, and two slots then share a name |
| `Saves.LeggiSalvataggioIndice` | salvataggi.c:90-101 | the read succeeds exactly for an index of at least 1 whose slot exists, and then returns the stored record unchanged |
| `Saves.Rinomina` | salvataggi.c:118 | a rename of a missing slot changes nothing; otherwise the target holds the moved record, the source is freed, and no other slot appears or disappears |
| `Saves.RinominaEffetto` | salvataggi.c:118 | a rename moves the record to the new index, frees the old one and leaves every other slot alone |
| `Saves.RinominaPasso` | salvataggi.c:113-119 | one rename of the shift loop moves the frontier by one slot, and keeps all slots from idx up to the frontier moved down one place |
| `Saves.SpostamentoIniziale` | salvataggi.c:111 | removing slot idx is the shift loop's starting state |
| `Saves.SpostamentoCompleto` | salvataggi.c:113-121 | once the loop has passed the old count, the directory is compacted |
| `Saves.EliminaSalvataggio` | salvataggi.c:103-122 | the delete succeeds exactly for an existing slot of index at least 1. A failure changes nothing. On success, slots below idx are unchanged, slot j in idx..count-1 holds old slot j+1, slot max(idx, count) is gone, and slots past it are untouched |
| `Saves.EliminaCompatta` | salvataggi.c:109-119 | on a directory holding exactly 1..N with idx in 1..N, the delete leaves exactly 1..N-1; slots below idx are unchanged, and slot j >= idx holds old slot j+1 |
| `Saves.EliminaConta` | salvataggi.c:109-119 | deleting a counted slot lowers the count by exactly one |
| `Saves.EliminaNomiDistinti` | salvataggi.c:113-119 | compaction only moves records, so distinct names stay distinct |
| `Saves.CreaSalvataggioDaEroe` | salvataggi.c:124-133 | a hero with a name of at most 24 characters converts to a record stamped with the given time and a zero checksum field; converting that record back gives the same hero |
| `Saves.CreaEroeDaSalvataggio` | salvataggi.c:135-143 | the hero read from a record has a name that fits the record's 25-byte field |
| `Saves.EroeSalvataggioAndataRitorno` | salvataggi.c:124-143 | record to hero to record gives the same record, apart from its checksum field, which comes back zero |
| `SaveChoice.ChiediSalvataggio` | salvataggi.c:169-181 | the classification is that of what one `fgets` into the 16-byte buffer reads, cut at its newline, which is the first line of the input cut to 15 characters |
| `SaveChoice.ClassificaRiga` | salvataggi.c:183-204 | the line is "back" exactly when a 'b' comes before the first character that is neither a digit nor 'b'. Otherwise it is a choice only when non-empty, all digits and valued in 1..count; it is out of range when all digits with another value, and invalid otherwise |
| `SaveChoice.Atoi` | salvataggi.c:198 | `atoi` of a digit string is its decimal value |
| `SaveChoice.NessunIndietroDopoNonCifra` | salvataggi.c:184-191 | a scan that stops at a non-digit other than 'b', with no 'b' before it, means neither "back" nor all digits |
| `SaveChoice.NessunIndietroSeTutteCifre` | salvataggi.c:184-191 | an all-digit line never means "back" |
| `Missions.InizializzaMissione` | missioni.c:17-31 | a new mission keeps its type and total. Name and description are their prefixes of exactly min(length, 49) and min(length, 199) characters. It starts with no completion, no progress and no item, and is unlocked unless it is the castle |
| `Missions.InizializzaGestoreMissioni` | missioni.c:33-66 | the four missions sit at their own index, all incomplete with no progress or item. Swamp, mansion and cave are unlocked; the castle is locked. Totals are 3, 1, 0, 1; the counter is 0; the current mission is none; the invariant holds |
| `Missions.ObiettiviRaggiunti` | missioni.c:357-366 | a mission without numbered objectives meets its goal exactly when its item is recovered; one with a positive total exactly when progress has reached the total, which for progress within 0..total means equal to it |
| `Missions.TutteLePreliminariCompletate` | missioni.c:349-355 | true exactly when every mission before the castle is completed |
| `Missions.GetMissione` | missioni.c:408-413 | a mission is returned exactly for a type in 0..3, and it is the mission at that index |
| `Missions.NumCompletateNessuna` | missioni.c:36 | with no mission completed, the completed count is zero |
| `Missions.SbloccaMissioneFinale` | missioni.c:368-379 | the castle becomes unlocked and nothing else changes |
| `Missions.CompletaMissione` | missioni.c:284-304 | a type outside 0..3 or an already completed mission changes nothing. Otherwise the mission becomes completed, the counter rises by one, and afterwards the castle is unlocked exactly when it was unlocked before or the three preliminary missions are now all completed. No other flag or field changes, and nothing is re-locked or un-completed |
| `Missions.CompletaMissioneIdempotente` | missioni.c:289 | completing a mission twice equals completing it once |
| `Missions.IncrementaObiettivi` | missioni.c:306-322 | progress becomes min(progress + 1, total), nothing else changes, 0 <= progress <= total is kept, and a reached goal stays reached |
| `Missions.SegnaOggettoRecuperato` | missioni.c:324-337 | the item is marked recovered and nothing else changes |
| `Missions.Incrementa` | missioni.c:309-313 | repeated increments never change the objective total |
| `Missions.IncrementiRaggiungonoObiettivo` | missioni.c:306-366 | from no progress, k increments give min(k, total) progress, and the goal is reached exactly when k >= total |
| `Missions.Applica` | missioni.c:284-337 | any single change keeps four missions and re-locks or un-completes nothing |
| `Missions.NumCompletateAggiorna` | missioni.c:291-292 | replacing one mission changes the completed count by the change in that mission's flag |
| `Missions.ApplicaCoerente` | missioni.c:284-337 | each change preserves the invariant: missions at their index, progress within 0..total, the three preliminaries unlocked, the castle unlocked exactly when they are all done, and the counter equal to the number completed |
| `Missions.ApplicaTutti` | missioni.c:284-337 | any sequence of changes keeps the four-mission array |
| `Missions.CoerenzaConservata` | missioni.c:284-337 | any sequence of changes from a state satisfying the invariant keeps it |
| `Missions.RaggiungibileCoerente` | missioni.c:284-304 | from initialisation, whatever happens, the counter equals the number of completed missions, and the castle is unlocked exactly when the three preliminaries are completed |
| `Missions.ApplicaTuttiAvanza` | missioni.c:368-371 | through any sequence of changes, a completed mission stays completed and an unlocked one stays unlocked |
| `Missions.MostraMenuMissioni` | missioni.c:70-102 | the menu offers as many entries as there are unlocked, incomplete missions, between 0 and 4 |
| `Missions.SelezionaMissione` | missioni.c:169-206 | a choice k in 1..available yields an available mission with exactly k-1 available missions before it; any other choice yields none |
| `Missions.SceltaUnica` | missioni.c:194-203 | two available missions with the same number of available missions before them are the same one, so the mapping is one-to-one |
| `Missions.NumDisponibiliCresce` | missioni.c:196-203 | passing an available mission raises the count of those before |
| `Missions.NumDisponibiliMonotono` | missioni.c:196-203 | the count of available missions never falls as the prefix grows |
| `Missions.DecisioneRitorno` | missioni.c:258-272 | the return is free exactly when the goal is met and the mission is the castle or its item is recovered; otherwise it is paid exactly when the hero has at least 50 coins, and refused otherwise |
| `Missions.MostraCostoRitorno` | missioni.c:159-163 | the "(Paga 50 Monete)" hint appears exactly when the return is not free, whatever the hero's coins |
| `Missions.CicloMissione` | missioni.c:230-278 | the loop ends exactly when a 4 is typed and the return is not refused; until then nothing changes |
| `Missions.EseguiMissione` | missioni.c:210-282 | the run is refused exactly for a type outside 0..3 or a locked or completed mission. A free return completes the mission and reports it completed. A paid return charges exactly 50 coins and reports it not completed. Both reset the current mission |
| `Missions.CicloMissioneEsito` | missioni.c:258-281 | when the loop ends, the state is the one the return decision prescribes |
| `Missions.PaludeRichiedeOggetto` | missioni.c:260-261 | the swamp at 3 of 3 generals with no item meets its goal, yet its return is not free |
| `Menu.PassoMenu` | menu.c:40-92 | One key of the main menu. A rejected key changes nothing. A space on an empty buffer changes nothing. A space on a non-empty buffer empties it and turns cheats on exactly when the buffer held the code. Once on, cheats stay on and the buffer is frozen. While off, a code key is appended below 31 keys and otherwise resets the buffer. The keys '0' to '3' never change the buffer or the flag. A valid buffer stays valid |
| `Menu.AzioneDelTasto` | menu.c:42-63 | 0 exits only while cheats are off, 1 always starts a new game, 2 always opens the load menu, and 3 opens the cheat menu only with cheats on |
| `Menu.Alimenta` | menu.c:32-93 | over any key sequence, cheats once on stay on, and the buffer never exceeds 31 keys of the code |
| `Menu.AccumulaTasto` | menu.c:78-87 | with cheats off and room in the buffer, a code key is appended and the menu goes on |
| `Menu.AccumulaSequenza` | menu.c:79-87 | with cheats off, the next n code keys are appended one by one while they fit |
| `Menu.CodiceAttiva` | menu.c:64-91 | from the initial state, typing "wwssadadba" and a space turns cheats on |
| `Menu.SpazioSvuota` | menu.c:64-77 | a space never leaves the menu, and afterwards either cheats are on or the buffer is empty |
| `Menu.SpazioCodiceSpazioAttiva` | menu.c:64-91 | from any state, a space, the code and a space turn cheats on |
| `Menu.AttivazioneSoloConCodice` | menu.c:64-77 | cheats turn on only at a space closing a buffer equal to the code |
| `Menu.ModificaCampoSalvataggio` | menu.c:153-206 | a failed read, or the final-mission option, leaves the directory unchanged |
| `Menu.ModificaConservaConta` | menu.c:171-205 | editing a slot in 1..count keeps the count. The record written keeps the name and the item and mission counters, and moves only the chosen field, clamped at 0. It overwrites the first slot with that name, and with distinct names it overwrites the chosen slot itself |

## Left out

- Terminal input and output are not modelled: `printf`, the ANSI colours, the boxed menus, `mostraEroe`, `mostraStatoMissione` and `mostraMenuSalvataggi`. Keys and numbers read with `getchar`, `fgets` and `scanf` are parameters.
- `menuPrincipale` is modelled one key at a time. What its `0`/`1`/`2`/`3` branches call is outside the buffer state machine:
  - `gestisciNuovaPartita` and `gestisciCaricaSalvataggio` are interactive glue over members modelled here, so they are not modelled;
  - `gestioneSalvataggioScelto` and `gestisciMenuTrucchi` are also glue;
  - the re-prompt loops of `chiediSalvataggioDaCaricare` and `modificaCampoSalvataggio` are not modelled.
- File-system calls are not modelled: `fopen`, `fread`, `fwrite`, `remove`, `rename`, `stat` and `mkdir`. The directory is a map. I/O failures are not modelled. Two consequences:
  - a failed `rename` in the shift loop, whose result the game ignores, is not modelled;
  - a crash partway through the non-atomic shift is not modelled.
- The record's byte layout and struct padding are not modelled, because records are only ever written and read whole.
- The CRC32 checksum and legacy-format migration have no code, so there is nothing to model.
- Wall-clock time is not modelled. `time(NULL)` is the parameter `ora`, and the `ctime` formatting is output.
- Integer overflow is not modelled. Counters, `+= delta` and `atoi` use unbounded integers: signed overflow of `+= delta` in `modificaMonete`/`modificaVita` is undefined behaviour in C, as is the result of `atoi` on a too-long number, and both lie outside the model.
- NULL-pointer guards have no Dafny counterpart.
- An empty line typed at a single-key prompt is not modelled. `leggiCaratterePulito` and the `getchar` loops at missioni.c:239-240 and menu.c:162 then take the newline as the key, and their discard loop goes on to swallow the whole next line. The model has no key for that case.
- End of file at a single-key prompt is not modelled. `getchar` returns `EOF` there, and the main menu then rejects the key and prompts again forever.
- Saves.CreaSalvataggioDaEroe: requires a name of at most 24 characters. The C `strcpy` from the 50-byte hero name into the 25-byte field would overflow on a longer name, and the model does not state what happens then.
- What happens to the unread rest of a slot-choice line is not modelled. `fgets` into the 16-byte buffer reads at most 15 characters, so a line of 15 or more characters leaves input behind: the characters past the 15th and the newline, or only the newline when the line has exactly 15 characters. Who reads that rest depends on the outcome of the first 15 characters. If they are invalid or out of range, the next pass of the re-prompt loop in `chiediSalvataggioDaCaricare` reads it; a lone newline then gives an empty, invalid line. If they choose a slot or contain a 'b' before any other non-digit, the function returns, and the next prompt reads the rest as its key: the `getchar` in `gestioneSalvataggioScelto` (salvataggi.c:218-220), `leggiCaratterePulito` in `modificaCampoSalvataggio` (menu.c:162), or the main menu after going back. A newline taken there as the key makes the discard loop swallow the whole next line. None of these continuations is modelled: the model classifies one read.
- A failed `fgets` at end of file reads nothing here, which is classified as invalid; the C code re-prompts in both cases.
- Hero.DichiaraNomeEroe: an input that is already at end of file leaves the C buffer unchanged. The model returns the empty name in that case.
- An embedded NUL byte in typed input is not modelled: model strings have no terminator inside.
- `missioneCompletata` and `missioneSbloccata` are not modelled separately: they are NULL-guarded field reads, used here as the fields themselves.
- `getNomeMissione` and `getDescrizioneMissione` are constant string tables. Only the names given at initialisation are modelled.
- Options 1-3 inside `eseguiMissione` (dungeon, shop, hero display) are TODO stubs that print only. The mission loop keeps just option 4.
- Option 3 of `modificaCampoSalvataggio` (final mission) is a stub that returns without saving. It is modelled as such.

=== FILE: cheats.dfy ===
/** The cheat-code recogniser of `trucchi.c`: which keys the main menu
    accepts in each mode, and the exact-match test against the code. */
module Cheats {
  import opened Common

  const TRUCCHI := "wwssadadba"

  /** The scan `carattereTruccoValido` performs: does `c` occur in `s`,
      looking from the front. */
  function Occorre(s: string, c: char): (r: bool)
    ensures r <==> exists i :: 0 <= i < |s| && s[i] == c
  {
    if |s| == 0 then false
    else if s[0] == c then true
    else
      var r := Occorre(s[1..], c);
      assert forall i :: 1 <= i < |s| ==> s[i] == s[1..][i - 1];
      r
  }

  /** A key that occurs somewhere in the cheat code. */
  function CarattereTruccoValido(c: char): (r: bool)
    ensures r <==> c in {'w', 's', 'a', 'd', 'b'}
  {
    var r := Occorre(TRUCCHI, c);
    assert TRUCCHI[0] == 'w' && TRUCCHI[2] == 's' && TRUCCHI[4] == 'a'
      && TRUCCHI[5] == 'd' && TRUCCHI[8] == 'b';
    r
  }

  /** `strcmp(input, TRUCCHI) == 0`. */
  function ConfrontoString(input: string): (r: bool)
    ensures r <==> input == "wwssadadba"
  {
    Strcmp(input, TRUCCHI) == 0
  }

  /** The keys the main menu accepts: with cheats active the three menu
      entries; otherwise the two entries, exit, the space that closes a
      sequence and every key of the cheat code. */
  function CarattereValido(c: char, trucchiAttivi: bool): (r: bool)
    ensures trucchiAttivi ==> (r <==> c in {'1', '2', '3'})
    ensures !trucchiAttivi ==> (r <==> c in {'1', '2', ' ', '0', 'w', 's', 'a', 'd', 'b'})
  {
    if trucchiAttivi then
      c == '1' || c == '2' || c == '3'
    else
      c == '1' || c == '2' || c == ' ' || c == '0' || CarattereTruccoValido(c)
  }

  /** While cheats are off, every key of the code is accepted, so the code
      can be typed; '3' only works once cheats are on, and '0' only before. */
  lemma CodiceDigitabile()
    ensures forall i :: 0 <= i < |TRUCCHI| ==> CarattereValido(TRUCCHI[i], false)
    ensures !CarattereValido('3', false) && CarattereValido('3', true)
    ensures CarattereValido('0', false) && !CarattereValido('0', true)
  {
    forall i | 0 <= i < |TRUCCHI|
      ensures CarattereValido(TRUCCHI[i], false)
    {
      assert CarattereTruccoValido(TRUCCHI[i]) by {
        assert Occorre(TRUCCHI, TRUCCHI[i]);
      }
    }
  }
}

=== FILE: common.dfy ===
/** Small vocabulary shared by every part of the model: an optional value and
    the handful of C string and stdio routines the game relies on (`strcmp`,
    `strncpy`, `strcspn(s, "\n")`, `fgets` and the newline strip after it),
    stated over Dafny strings. A C string is modelled as
    the characters before its terminator, so a model string never holds '\0'. */
module Common {

  datatype Option<T> = None | Some(value: T)

  function Min(a: int, b: int): int {
    if a <= b then a else b
  }

  function Max(a: int, b: int): int {
    if a <= b then b else a
  }

  /** The sign of C `strcmp`: compares character by character; at the first
      difference the smaller character decides, and a string that ends first
      (its terminator is 0) is the smaller one. */
  function Strcmp(a: string, b: string): (r: int)
    ensures r == 0 <==> a == b
    ensures -1 <= r <= 1
    decreases |a|
  {
    if |a| == 0 && |b| == 0 then 0
    else if |a| == 0 then -1
    else if |b| == 0 then 1
    else if a[0] < b[0] then -1
    else if a[0] > b[0] then 1
    else
      var r := Strcmp(a[1..], b[1..]);
      assert r == 0 ==> a == [a[0]] + a[1..] == [b[0]] + b[1..] == b;
      assert a == b ==> a[1..] == b[1..];
      r
  }

  /** The prefix that `strncpy(dst, s, n)` followed by `dst[n] = '\0'` keeps. */
  function Tronca(s: string, n: nat): (r: string)
    ensures |r| == Min(n, |s|)
    ensures r <= s
  {
    s[..Min(n, |s|)]
  }

  /** `s[strcspn(s, "\n")] = '\0'`: everything before the first newline. */
  function PrimaRiga(s: string): (r: string)
    ensures r <= s
    ensures '\n' !in r
    ensures |r| < |s| ==> s[|r|] == '\n'
  {
    if |s| == 0 || s[0] == '\n' then ""
    else
      var rest := PrimaRiga(s[1..]);
      assert [s[0]] + rest <= s by {
        assert s == [s[0]] + s[1..];
      }
      [s[0]] + rest
  }

  /** `fgets(buf, size, stdin)` on the pending input: at most size - 1
      characters, stopping just after the first newline. */
  function Fgets(input: string, size: nat): (r: string)
    requires size >= 1
    ensures r <= input
    ensures |r| <= size - 1
    ensures forall i :: 0 <= i < |r| - 1 ==> r[i] != '\n'
    ensures |r| < size - 1 && |r| < |input| ==> |r| > 0 && r[|r| - 1] == '\n'
    decreases size
  {
    if |input| == 0 || size == 1 then ""
    else if input[0] == '\n' then "\n"
    else
      var rest := Fgets(input[1..], size - 1);
      assert input == [input[0]] + input[1..];
      [input[0]] + rest
  }

  /** Drops one trailing newline, if there is one. */
  function RimuoviNewline(s: string): (r: string)
    ensures |s| > 0 && s[|s| - 1] == '\n' ==> r + "\n" == s
    ensures !(|s| > 0 && s[|s| - 1] == '\n') ==> r == s
  {
    if |s| > 0 && s[|s| - 1] == '\n' then s[..|s| - 1] else s
  }

  /** What `fgets` followed by the newline strip keeps is the first line of
      the input, cut to size - 1 characters. */
  lemma {:induction false} NomeLettoEPrimaRiga(input: string, size: nat)
    requires size >= 1
    ensures RimuoviNewline(Fgets(input, size)) == Tronca(PrimaRiga(input), size - 1)
    decreases size
  {
    if |input| == 0 || size == 1 {
    } else if input[0] == '\n' {
    } else {
      var x := input[0];
      assert Fgets(input, size) == [x] + Fgets(input[1..], size - 1);
      assert PrimaRiga(input) == [x] + PrimaRiga(input[1..]);
      RimuoviNewlineInCoda(x, Fgets(input[1..], size - 1));
      NomeLettoEPrimaRiga(input[1..], size - 1);
      TroncaInCoda(x, PrimaRiga(input[1..]), size - 1);
    }
  }

  /** Cutting what `fgets` read at its first newline gives the same first
      line, cut to size - 1 characters, as stripping its trailing newline. */
  lemma PrimaRigaDiFgets(input: string, size: nat)
    requires size >= 1
    ensures PrimaRiga(Fgets(input, size)) == Tronca(PrimaRiga(input), size - 1)
  {
    var r := Fgets(input, size);
    var p := PrimaRiga(r);
    NomeLettoEPrimaRiga(input, size);
    if |r| > 0 && r[|r| - 1] == '\n' {
      assert p == r[..|r| - 1];
    }
  }

  /** Stripping the newline only touches the end of a line. */
  lemma RimuoviNewlineInCoda(x: char, rest: string)
    requires x != '\n'
    ensures RimuoviNewline([x] + rest) == [x] + RimuoviNewline(rest)
  {
    if |rest| > 0 && rest[|rest| - 1] == '\n' {
      assert ([x] + rest)[..|rest|] == [x] + rest[..|rest| - 1];
    }
  }

  /** Cutting a line to n characters keeps its first one and cuts the rest
      to n - 1. */
  lemma TroncaInCoda(x: char, s: string, n: nat)
    requires n >= 1
    ensures Tronca([x] + s, n) == [x] + Tronca(s, n - 1)
  {
    assert ([x] + s)[..Min(n, |s| + 1)] == [x] + s[..Min(n - 1, |s|)];
  }
}

=== FILE: hero.dfy ===
/** The hero record of `eroe.h` and the arithmetic of `eroe.c`: default
    initialisation, coin and health adjustment clamped at zero, and the
    clean-up of the name typed at the keyboard. */
module Hero {
  import opened Common

  /** Size of the name buffer handed to `fgets` and of a save record's name
      field: at most MAX_NOME_EROE - 1 characters fit before the terminator. */
  const MAX_NOME_EROE: nat := 25

  const VITA_INIZIALE := 20

  datatype Eroe = Eroe(
    nome: string,
    vita: int,
    monete: int,
    missioniCompletate: int,
    oggettiPosseduti: int)

  /** All counters of a hero are non-negative. */
  predicate StatisticheValide(e: Eroe) {
    e.vita >= 0 && e.monete >= 0 && e.missioniCompletate >= 0 && e.oggettiPosseduti >= 0
  }

  /** A fresh hero: the given name, 20 health and nothing else. */
  function InizializzaEroe(nome: string): (e: Eroe)
    ensures e.nome == nome
    ensures e.vita == VITA_INIZIALE
    ensures e.monete == 0 && e.missioniCompletate == 0 && e.oggettiPosseduti == 0
    ensures StatisticheValide(e)
  {
    Eroe(nome, VITA_INIZIALE, 0, 0, 0)
  }

  /** Adds `delta` coins; a result below zero becomes zero. */
  function ModificaMonete(e: Eroe, delta: int): (r: Eroe)
    ensures r.monete == Max(0, e.monete + delta)
    ensures r == e.(monete := r.monete)
    ensures e.monete + delta >= 0 ==> r.monete - e.monete == delta
  {
    var m := e.monete + delta;
    e.(monete := if m < 0 then 0 else m)
  }

  /** Adds `delta` health; a result below zero becomes zero. */
  function ModificaVita(e: Eroe, delta: int): (r: Eroe)
    ensures r.vita == Max(0, e.vita + delta)
    ensures r == e.(vita := r.vita)
    ensures e.vita + delta >= 0 ==> r.vita - e.vita == delta
  {
    var v := e.vita + delta;
    e.(vita := if v < 0 then 0 else v)
  }

  /** Whatever the delta, both adjustments keep a valid hero valid. */
  lemma ModificheConservanoStatistiche(e: Eroe, delta: int)
    requires StatisticheValide(e)
    ensures StatisticheValide(ModificaMonete(e, delta))
    ensures StatisticheValide(ModificaVita(e, delta))
  {
  }

  /** A gain followed by a loss of the same amount restores the hero; a loss
      can only be undone this way when it did not hit the floor. */
  lemma GuadagnoPoiPerditaRipristina(e: Eroe, delta: int)
    requires e.monete >= 0 && e.vita >= 0 && delta >= 0
    ensures ModificaMonete(ModificaMonete(e, delta), -delta) == e
    ensures ModificaVita(ModificaVita(e, delta), -delta) == e
  {
  }

  /** The name `dichiaraNomeEroe` leaves in its buffer: the line read by
      `fgets` into a MAX_NOME_EROE-byte buffer, without its newline. */
  function DichiaraNomeEroe(input: string): (nome: string)
    ensures nome == Tronca(PrimaRiga(input), MAX_NOME_EROE - 1)
    ensures '\n' !in nome
    ensures |nome| < MAX_NOME_EROE
  {
    var letta := Fgets(input, MAX_NOME_EROE);
    var nome := RimuoviNewline(letta);
    NomeLettoEPrimaRiga(input, MAX_NOME_EROE);
    nome
  }
}


=== FILE: menu.dfy ===
/** The parts of `menu.c` with state: the main menu's cheat-sequence buffer,
    which collects keys until a space and latches the cheats-active flag
    (kept here as an explicit state value instead of a process-wide flag),
    and the edit-and-resave flow of the cheat menu. */
module Menu {
  import opened Common
  import opened Hero
  import opened Cheats
  import opened Saves

  /** Size of the `contTrucchi` buffer: at most 31 keys and a terminator. */
  const MAX_TRUCCHI := 32

  /** `contTrucchi[..i]` and `trucchiAttivi`. */
  datatype StatoMenu = StatoMenu(sequenza: string, trucchiAttivi: bool)

  /** What the main menu does after a key. */
  datatype Azione =
    | Nessuna            // rejected key, sequence handling, or an inactive '3'
    | Esci               // '0': leaves the menu
    | NuovaPartita       // '1': starts a new game, then leaves the menu
    | CaricaSalvataggio  // '2': the load menu, then back here
    | MenuTrucchi        // '3' with cheats active

  datatype Passo = Passo(stato: StatoMenu, azione: Azione)

  const STATO_INIZIALE := StatoMenu([], false)

  /** The buffer holds at most 31 keys, all of them keys of the cheat code. */
  ghost predicate StatoValido(st: StatoMenu) {
    |st.sequenza| <= MAX_TRUCCHI - 1
    && forall i :: 0 <= i < |st.sequenza| ==> CarattereTruccoValido(st.sequenza[i])
  }

  /** One turn of `menuPrincipale` on key `c`. */
  function PassoMenu(st: StatoMenu, c: char): (p: Passo)
    ensures st.trucchiAttivi ==> p.stato.trucchiAttivi
    ensures StatoValido(st) ==> StatoValido(p.stato)
    ensures !CarattereValido(c, st.trucchiAttivi) ==> p == Passo(st, Nessuna)
    ensures c == ' ' && st.sequenza == [] ==> p.stato == st
    ensures c == ' ' && st.sequenza != [] && !st.trucchiAttivi ==>
      p.stato == StatoMenu([], st.sequenza == TRUCCHI)
    ensures st.trucchiAttivi ==> p.stato == st
    ensures c == '0' || c == '1' || c == '2' || c == '3' ==> p.stato == st
    ensures !st.trucchiAttivi && CarattereTruccoValido(c) ==>
      if |st.sequenza| < MAX_TRUCCHI - 1 then p.stato == StatoMenu(st.sequenza + [c], false)
      else p.stato == StatoMenu([], false)
  {
    if !CarattereValido(c, st.trucchiAttivi) then Passo(st, Nessuna)
    else if c == '0' then Passo(st, Esci)
    else if c == '1' then Passo(st, NuovaPartita)
    else if c == '2' then Passo(st, CaricaSalvataggio)
    else if c == '3' then Passo(st, if st.trucchiAttivi then MenuTrucchi else Nessuna)
    else if c == ' ' then
      if |st.sequenza| == 0 then Passo(st, Nessuna)
      else
        var attivi := if ConfrontoString(st.sequenza) then true else st.trucchiAttivi;
        Passo(StatoMenu([], attivi), Nessuna)
    else if !st.trucchiAttivi then
      if |st.sequenza| < MAX_TRUCCHI - 1 then Passo(StatoMenu(st.sequenza + [c], false), Nessuna)
      else Passo(StatoMenu([], false), Nessuna)
    else Passo(st, Nessuna)
  }

  /** Which key leads to which action: '0' leaves only while cheats are off,
      '1' always starts a new game, '2' always opens the load menu, and '3'
      opens the cheat menu only once cheats are on. */
  lemma AzioneDelTasto(st: StatoMenu, c: char)
    ensures PassoMenu(st, c).azione == Esci <==> c == '0' && !st.trucchiAttivi
    ensures PassoMenu(st, c).azione == NuovaPartita <==> c == '1'
    ensures PassoMenu(st, c).azione == CaricaSalvataggio <==> c == '2'
    ensures PassoMenu(st, c).azione == MenuTrucchi <==> c == '3' && st.trucchiAttivi
  {
    CodiceDigitabile();
  }

  /** `menuPrincipale` on a sequence of keys: stops at the first '0' or '1',
      which leave the menu; returns the state reached. `tasti` holds only the
      keys the main menu itself reads: the lines read by the load menu after
      a '2' (and by the cheat menu after a '3') are not part of it. */
  function Alimenta(st: StatoMenu, tasti: string): (r: StatoMenu)
    ensures st.trucchiAttivi ==> r.trucchiAttivi
    ensures StatoValido(st) ==> StatoValido(r)
    decreases |tasti|
  {
    if |tasti| == 0 then st
    else
      var p := PassoMenu(st, tasti[0]);
      if p.azione == Esci || p.azione == NuovaPartita then p.stato
      else Alimenta(p.stato, tasti[1..])
  }

  /** While cheats are off and the buffer has room, a key of the code is
      appended and the menu goes on with the remaining keys. */
  lemma AccumulaTasto(b: string, tasti: string)
    requires |b| < MAX_TRUCCHI - 1 && |tasti| > 0 && CarattereTruccoValido(tasti[0])
    ensures Alimenta(StatoMenu(b, false), tasti) == Alimenta(StatoMenu(b + [tasti[0]], false), tasti[1..])
  {
    AzioneDelTasto(StatoMenu(b, false), tasti[0]);
  }

  /** While cheats are off and the buffer has room, the first `n` keys, all
      keys of the code, are appended one by one. */
  lemma {:induction false} AccumulaSequenza(b: string, tasti: string, n: nat)
    requires n <= |tasti| && |b| + n <= MAX_TRUCCHI - 1
    requires forall i :: 0 <= i < n ==> CarattereTruccoValido(tasti[i])
    ensures Alimenta(StatoMenu(b, false), tasti) == Alimenta(StatoMenu(b + tasti[..n], false), tasti[n..])
  {
    if n == 0 {
      assert b + tasti[..0] == b && tasti[0..] == tasti;
    } else {
      var b' := b + tasti[..n - 1];
      var resto := tasti[n - 1..];
      assert Alimenta(StatoMenu(b, false), tasti) == Alimenta(StatoMenu(b', false), resto) by {
        AccumulaSequenza(b, tasti, n - 1);
      }
      assert Alimenta(StatoMenu(b', false), resto) == Alimenta(StatoMenu(b + tasti[..n], false), tasti[n..]) by {
        assert resto[0] == tasti[n - 1];
        AccumulaTasto(b', resto);
        assert resto[1..] == tasti[n..];
        PrefissoEsteso(b, tasti, n);
      }
    }
  }

  /** Growing a prefix by one element. */
  lemma PrefissoEsteso(b: string, s: string, n: nat)
    requires 0 < n <= |s|
    ensures b + s[..n - 1] + [s[n - 1]] == b + s[..n]
  {
    assert s[..n] == s[..n - 1] + [s[n - 1]];
  }

  /** Dropping the first part of a three-part concatenation. */
  lemma DopoIlPrimo(a: string, b: string, c: string)
    ensures (a + b + c)[|a|..] == b + c
    ensures |a| > 0 ==> (a + b + c)[0] == a[0]
  {
  }

  /** From an empty buffer, typing the code and a space turns cheats on. */
  lemma CodiceAttiva()
    ensures Alimenta(STATO_INIZIALE, TRUCCHI + " ").trucchiAttivi
  {
    var tasti := TRUCCHI + " ";
    var pieno := StatoMenu(TRUCCHI, false);
    assert Alimenta(STATO_INIZIALE, tasti) == Alimenta(pieno, " ") by {
      forall i | 0 <= i < |TRUCCHI|
        ensures CarattereTruccoValido(tasti[i])
      {
        assert tasti[i] == TRUCCHI[i] && TRUCCHI[i] in {'w', 's', 'a', 'd', 'b'};
      }
      AccumulaSequenza([], tasti, |TRUCCHI|);
      assert [] + tasti[..|TRUCCHI|] == TRUCCHI && tasti[|TRUCCHI|..] == " ";
    }
    assert Alimenta(pieno, " ").trucchiAttivi by {
      AzioneDelTasto(pieno, ' ');
      assert PassoMenu(pieno, ' ').stato == StatoMenu([], true);
    }
  }

  /** A space never leaves the menu, and afterwards either cheats are on or
      the buffer is empty. */
  lemma SpazioSvuota(st: StatoMenu)
    ensures PassoMenu(st, ' ').azione == Nessuna
    ensures PassoMenu(st, ' ').stato.trucchiAttivi || PassoMenu(st, ' ').stato == STATO_INIZIALE
  {
  }

  /** From any state, a space, the code and a space turn cheats on: the
      first space empties the buffer (or finds the code already there). */
  lemma SpazioCodiceSpazioAttiva(st: StatoMenu)
    ensures Alimenta(st, " " + TRUCCHI + " ").trucchiAttivi
  {
    var tasti := " " + TRUCCHI + " ";
    var dopo := PassoMenu(st, ' ').stato;
    assert Alimenta(st, tasti) == Alimenta(dopo, TRUCCHI + " ") by {
      SpazioSvuota(st);
      DopoIlPrimo(" ", TRUCCHI, " ");
    }
    SpazioSvuota(st);
    if !dopo.trucchiAttivi {
      CodiceAttiva();
    }
  }

  /** Cheats only turn on at a space closing a buffer equal to the code. */
  lemma AttivazioneSoloConCodice(st: StatoMenu, c: char)
    requires !st.trucchiAttivi && PassoMenu(st, c).stato.trucchiAttivi
    ensures c == ' ' && st.sequenza == TRUCCHI
  {
  }

  // ---------------------------------------------------------------------
  // Editing a save from the cheat menu

  /** The field chosen in `modificaCampoSalvataggio` (the prompt repeats
      until one of the three options is typed). */
  datatype Campo = Vita | Monete | MissioneFinale

  /** `modificaCampoSalvataggio`: reads slot `scelta`, adjusts health or
      coins by `delta` on the hero it holds, and saves the hero again under
      the same name, stamped with time `ora`. A failed read, or the final
      mission option (not written yet), leaves the directory unchanged. */
  function ModificaCampoSalvataggio(d: Cartella, scelta: int, campo: Campo, delta: int, ora: int): (d': Cartella)
    ensures LeggiSalvataggioIndice(d, scelta).None? || campo == MissioneFinale ==> d' == d
  {
    match LeggiSalvataggioIndice(d, scelta)
    case None => d
    case Some(s) =>
      var e := CreaEroeDaSalvataggio(s);
      match campo
      case MissioneFinale => d
      case Vita => SalvaGioco(d, CreaSalvataggioDaEroe(ModificaVita(e, delta), ora))
      case Monete => SalvaGioco(d, CreaSalvataggioDaEroe(ModificaMonete(e, delta), ora))
  }

  /** The record an edit writes back: same name and the same item and
      mission counters, the chosen field moved by `delta` and clamped at 0,
      the new time and a zero checksum field. */
  ghost predicate RecordModificato(s: Salvataggio, s': Salvataggio, campo: Campo, delta: int, ora: int) {
    && s'.nome == s.nome
    && s'.oggettiPosseduti == s.oggettiPosseduti
    && s'.missioniCompletate == s.missioniCompletate
    && s'.dataSalvataggio == ora && s'.crc32 == 0
    && (campo == Vita ==> s'.vita == Max(0, s.vita + delta) && s'.monete == s.monete)
    && (campo == Monete ==> s'.monete == Max(0, s.monete + delta) && s'.vita == s.vita)
  }

  /** Editing a slot chosen in 1..count rewrites an existing slot, so the
      count does not change; the record written keeps the name and changes
      only the chosen field. With distinct names, it is the chosen slot that
      is rewritten and no other slot changes. */
  lemma ModificaConservaConta(d: Cartella, scelta: int, campo: Campo, delta: int, ora: int)
    requires 1 <= scelta <= ContaSalvataggi(d) && campo != MissioneFinale
    ensures ContaSalvataggi(ModificaCampoSalvataggio(d, scelta, campo, delta, ora)) == ContaSalvataggi(d)
    ensures exists i, s' :: (1 <= i <= scelta && i in d && d[i].nome == d[scelta].nome
                             && RecordModificato(d[scelta], s', campo, delta, ora)
                             && ModificaCampoSalvataggio(d, scelta, campo, delta, ora) == d[i := s'])
    ensures NomiDistinti(d) ==> exists s' :: (RecordModificato(d[scelta], s', campo, delta, ora)
                                              && ModificaCampoSalvataggio(d, scelta, campo, delta, ora) == d[scelta := s'])
  {
    var s := d[scelta];
    var e := CreaEroeDaSalvataggio(s);
    var e' := if campo == Vita then ModificaVita(e, delta) else ModificaMonete(e, delta);
    var s' := CreaSalvataggioDaEroe(e', ora);
    assert ModificaCampoSalvataggio(d, scelta, campo, delta, ora) == SalvaGioco(d, s');
    assert RecordModificato(s, s', campo, delta, ora);
    var n := ContaSalvataggi(d);
    assert !NessunoConNome(d, s'.nome, n) by {
      assert d[scelta].nome == s'.nome;
    }
    SalvaGiocoConta(d, s');
    var r := PrimaCorrispondenza(d, s'.nome, 1, n);
    var i := r.value;
    assert PrimoConNome(d, s'.nome, i);
    assert i <= scelta;
    assert SalvaGioco(d, s') == d[i := s'];
    if NomiDistinti(d) {
      assert i == scelta;
    }
  }
}

=== FILE: missions.dfy ===
/** The mission progression of `missioni.c`: four missions with completed,
    unlocked and objective counters, the unlock of the final mission, the
    numbered menu of available missions and the rule for returning to the
    village. Mission types are the integers of the C enumeration, so the
    range checks of the source are modelled as written. */
module Missions {
  import opened Common
  import opened Hero

  const PALUDE := 0
  const MAGIONE := 1
  const GROTTA := 2
  const CASTELLO := 3
  const NESSUNA := -1

  /** Number of missions in the manager's fixed array. */
  const NUM_MISSIONI := 4

  /** Price of leaving a mission before its goal is met. */
  const COSTO_RITORNO := 50

  datatype Missione = Missione(
    tipo: int,
    nome: string,
    descrizione: string,
    completata: bool,
    sbloccata: bool,
    obiettiviCompletati: int,
    obiettiviTotali: int,
    oggettoRecuperato: bool)

  datatype GestoreMissioni = GestoreMissioni(
    missioni: seq<Missione>,
    missioniCompletate: int,
    missioneCorrente: int)

  predicate TipoValido(tipo: int) {
    0 <= tipo < NUM_MISSIONI
  }

  // ---------------------------------------------------------------------
  // Initialisation

  /** `inizializzaMissione`: name and description cut to the 49 and 199
      characters their buffers hold; every mission but the castle starts
      unlocked; no progress, no item. */
  function InizializzaMissione(tipo: int, nome: string, descrizione: string, obiettiviTotali: int): (m: Missione)
    ensures m.tipo == tipo && m.obiettiviTotali == obiettiviTotali
    ensures m.nome <= nome && |m.nome| == Min(|nome|, 49)
    ensures m.descrizione <= descrizione && |m.descrizione| == Min(|descrizione|, 199)
    ensures !m.completata && m.obiettiviCompletati == 0 && !m.oggettoRecuperato
    ensures m.sbloccata <==> tipo != CASTELLO
  {
    Missione(tipo, Tronca(nome, 49), Tronca(descrizione, 199), false, tipo != CASTELLO, 0, obiettiviTotali, false)
  }

  /** `inizializzaGestoreMissioni`. */
  function InizializzaGestoreMissioni(): (g: GestoreMissioni)
    ensures |g.missioni| == NUM_MISSIONI
    ensures g.missioniCompletate == 0 && g.missioneCorrente == NESSUNA
    ensures forall i :: 0 <= i < NUM_MISSIONI ==>
      g.missioni[i].tipo == i && !g.missioni[i].completata
      && g.missioni[i].obiettiviCompletati == 0 && !g.missioni[i].oggettoRecuperato
    ensures g.missioni[PALUDE].sbloccata && g.missioni[MAGIONE].sbloccata && g.missioni[GROTTA].sbloccata
    ensures !g.missioni[CASTELLO].sbloccata
    ensures g.missioni[PALUDE].obiettiviTotali == 3 && g.missioni[MAGIONE].obiettiviTotali == 1
    ensures g.missioni[GROTTA].obiettiviTotali == 0 && g.missioni[CASTELLO].obiettiviTotali == 1
    ensures Coerente(g)
  {
    var g := GestoreMissioni(
      [ InizializzaMissione(PALUDE, "Palude Putrescente",
          "Sconfiggi 3 Generale Orco del Signore Oscuro", 3),
        InizializzaMissione(MAGIONE, "Magione Infestata",
          "Recupera la chiave del Castello e sconfiggi un Vampiro Superiore", 1),
        InizializzaMissione(GROTTA, "Grotta di Cristallo",
          "Recupera la Spada dell'Eroe", 0),
        InizializzaMissione(CASTELLO, "Castello del Signore Oscuro",
          "Sconfiggi il Signore Oscuro", 1) ],
      0, NESSUNA);
    NumCompletateNessuna(g.missioni);
    g
  }

  // ---------------------------------------------------------------------
  // State queries

  /** `obiettiviRaggiunti`: a mission without numbered objectives is done
      when its item is recovered; otherwise when the counter has reached
      the total. */
  function ObiettiviRaggiunti(m: Missione): (r: bool)
    ensures m.obiettiviTotali == 0 ==> (r <==> m.oggettoRecuperato)
    ensures m.obiettiviTotali > 0 ==> (r <==> m.obiettiviCompletati >= m.obiettiviTotali)
    ensures 0 < m.obiettiviTotali && 0 <= m.obiettiviCompletati <= m.obiettiviTotali ==>
      (r <==> m.obiettiviCompletati == m.obiettiviTotali)
  {
    if m.obiettiviTotali == 0 then m.oggettoRecuperato
    else m.obiettiviCompletati >= m.obiettiviTotali
  }

  /** `tutteLePreliminariCompletate`. */
  function TutteLePreliminariCompletate(g: GestoreMissioni): (r: bool)
    requires |g.missioni| == NUM_MISSIONI
    ensures r <==> forall i :: 0 <= i < CASTELLO ==> g.missioni[i].completata
  {
    g.missioni[PALUDE].completata && g.missioni[MAGIONE].completata && g.missioni[GROTTA].completata
  }

  /** `getMissione`: the mission of a type in 0..3, nothing for any other. */
  function GetMissione(g: GestoreMissioni, tipo: int): (r: Option<Missione>)
    requires |g.missioni| == NUM_MISSIONI
    ensures r.Some? <==> TipoValido(tipo)
    ensures r.Some? ==> r.value == g.missioni[tipo]
    ensures r.Some? && Coerente(g) ==> r.value.tipo == tipo
  {
    if tipo < 0 || tipo > 3 then None else Some(g.missioni[tipo])
  }

  /** How many missions in `ms` are completed. */
  function NumCompletate(ms: seq<Missione>): nat {
    if |ms| == 0 then 0
    else NumCompletate(ms[..|ms| - 1]) + (if ms[|ms| - 1].completata then 1 else 0)
  }

  /** With no mission completed, the count is zero. */
  lemma {:induction false} NumCompletateNessuna(ms: seq<Missione>)
    requires forall i :: 0 <= i < |ms| ==> !ms[i].completata
    ensures NumCompletate(ms) == 0
    decreases |ms|
  {
    if |ms| > 0 {
      NumCompletateNessuna(ms[..|ms| - 1]);
    }
  }

  /** The invariant every state reached from initialisation keeps: missions
      sit at their own index, the three preliminary missions are unlocked,
      the castle is unlocked exactly when all three are completed, progress
      lies between 0 and the total, and the completed counter counts the
      completed missions. */
  ghost predicate Coerente(g: GestoreMissioni) {
    && |g.missioni| == NUM_MISSIONI
    && (forall i :: 0 <= i < NUM_MISSIONI ==>
         g.missioni[i].tipo == i
         && 0 <= g.missioni[i].obiettiviCompletati <= g.missioni[i].obiettiviTotali)
    && g.missioni[PALUDE].sbloccata && g.missioni[MAGIONE].sbloccata && g.missioni[GROTTA].sbloccata
    && (g.missioni[CASTELLO].sbloccata <==> TutteLePreliminariCompletate(g))
    && g.missioniCompletate == NumCompletate(g.missioni)
  }

  // ---------------------------------------------------------------------
  // Transitions

  /** `sbloccaMissioneFinale`: unlocks the castle and nothing else. */
  function SbloccaMissioneFinale(g: GestoreMissioni): (r: GestoreMissioni)
    requires |g.missioni| == NUM_MISSIONI
    ensures |r.missioni| == NUM_MISSIONI && r.missioni[CASTELLO].sbloccata
    ensures r.missioni[CASTELLO] == g.missioni[CASTELLO].(sbloccata := true)
    ensures forall i :: 0 <= i < CASTELLO ==> r.missioni[i] == g.missioni[i]
    ensures r.missioniCompletate == g.missioniCompletate && r.missioneCorrente == g.missioneCorrente
  {
    g.(missioni := g.missioni[CASTELLO := g.missioni[CASTELLO].(sbloccata := true)])
  }

  /** `completaMissione`: a no-op for a type outside 0..3 or a mission that
      is already completed; otherwise marks it completed, counts it, and
      unlocks the castle once the three preliminary missions are done. */
  function CompletaMissione(g: GestoreMissioni, tipo: int): (r: GestoreMissioni)
    requires |g.missioni| == NUM_MISSIONI
    ensures |r.missioni| == NUM_MISSIONI
    ensures !TipoValido(tipo) || g.missioni[tipo].completata ==> r == g
    ensures TipoValido(tipo) && !g.missioni[tipo].completata ==>
      && r.missioni[tipo].completata
      && r.missioniCompletate == g.missioniCompletate + 1
      && (r.missioni[CASTELLO].sbloccata <==>
            g.missioni[CASTELLO].sbloccata || TutteLePreliminariCompletate(r))
    ensures forall i :: 0 <= i < NUM_MISSIONI ==>
      r.missioni[i] == g.missioni[i].(completata := r.missioni[i].completata, sbloccata := r.missioni[i].sbloccata)
    ensures forall i :: 0 <= i < NUM_MISSIONI && i != tipo ==> r.missioni[i].completata == g.missioni[i].completata
    ensures forall i :: 0 <= i < NUM_MISSIONI && i != CASTELLO ==> r.missioni[i].sbloccata == g.missioni[i].sbloccata
    ensures Avanza(g, r)
    ensures r.missioneCorrente == g.missioneCorrente
  {
    if tipo < 0 || tipo > 3 then g
    else
      var m := g.missioni[tipo];
      if m.completata then g
      else
        var g1 := g.(missioni := g.missioni[tipo := m.(completata := true)],
                     missioniCompletate := g.missioniCompletate + 1);
        if TutteLePreliminariCompletate(g1) then SbloccaMissioneFinale(g1) else g1
  }

  /** Completing a mission twice is the same as completing it once. */
  lemma CompletaMissioneIdempotente(g: GestoreMissioni, tipo: int)
    requires |g.missioni| == NUM_MISSIONI
    ensures CompletaMissione(CompletaMissione(g, tipo), tipo) == CompletaMissione(g, tipo)
  {
  }

  /** Nothing re-locks a mission or un-completes one. */
  ghost predicate Avanza(g: GestoreMissioni, r: GestoreMissioni)
    requires |g.missioni| == NUM_MISSIONI && |r.missioni| == NUM_MISSIONI
  {
    forall i :: 0 <= i < NUM_MISSIONI ==>
      (g.missioni[i].completata ==> r.missioni[i].completata)
      && (g.missioni[i].sbloccata ==> r.missioni[i].sbloccata)
  }

  /** `incrementaObiettivi`: one more objective, saturating at the total. */
  function IncrementaObiettivi(m: Missione): (r: Missione)
    ensures r.obiettiviCompletati == Min(m.obiettiviCompletati + 1, m.obiettiviTotali)
    ensures r == m.(obiettiviCompletati := r.obiettiviCompletati)
    ensures 0 <= m.obiettiviCompletati <= m.obiettiviTotali ==>
      0 <= r.obiettiviCompletati <= r.obiettiviTotali
    ensures ObiettiviRaggiunti(m) && m.obiettiviCompletati <= m.obiettiviTotali ==> ObiettiviRaggiunti(r)
  {
    var c := m.obiettiviCompletati + 1;
    m.(obiettiviCompletati := if c > m.obiettiviTotali then m.obiettiviTotali else c)
  }

  /** `segnaOggettoRecuperato`. */
  function SegnaOggettoRecuperato(m: Missione): (r: Missione)
    ensures r.oggettoRecuperato && r == m.(oggettoRecuperato := true)
  {
    m.(oggettoRecuperato := true)
  }

  /** From no progress, a mission with n > 0 objectives reaches its goal
      after exactly n increments and not before. */
  lemma {:induction false} IncrementiRaggiungonoObiettivo(m: Missione, k: nat)
    requires m.obiettiviTotali > 0 && m.obiettiviCompletati == 0
    ensures Incrementa(m, k).obiettiviCompletati == Min(k, m.obiettiviTotali)
    ensures ObiettiviRaggiunti(Incrementa(m, k)) <==> k >= m.obiettiviTotali
  {
    if k > 0 {
      IncrementiRaggiungonoObiettivo(m, k - 1);
    }
  }

  /** k applications of `incrementaObiettivi`. */
  function Incrementa(m: Missione, k: nat): (r: Missione)
    ensures r.obiettiviTotali == m.obiettiviTotali
  {
    if k == 0 then m else IncrementaObiettivi(Incrementa(m, k - 1))
  }

  // ---------------------------------------------------------------------
  // Invariant over every sequence of transitions

  /** The changes game code can make to the mission manager. */
  datatype Evento =
    | Completa(tipo: int)      // completaMissione(gestore, tipo)
    | Incrementa1(tipo: int)   // incrementaObiettivi(getMissione(gestore, tipo))
    | Recupera(tipo: int)      // segnaOggettoRecuperato(getMissione(gestore, tipo))

  /** Applies one change; a type outside 0..3 gives a NULL mission, which
      both mission functions ignore. */
  function Applica(g: GestoreMissioni, ev: Evento): (r: GestoreMissioni)
    requires |g.missioni| == NUM_MISSIONI
    ensures |r.missioni| == NUM_MISSIONI
    ensures Avanza(g, r)
  {
    match ev
    case Completa(t) => CompletaMissione(g, t)
    case Incrementa1(t) =>
      (match GetMissione(g, t)
       case None => g
       case Some(m) => g.(missioni := g.missioni[t := IncrementaObiettivi(m)]))
    case Recupera(t) =>
      (match GetMissione(g, t)
       case None => g
       case Some(m) => g.(missioni := g.missioni[t := SegnaOggettoRecuperato(m)]))
  }

  /** Replacing one mission changes the completed count by the change in
      that mission's flag. */
  lemma {:induction false} NumCompletateAggiorna(ms: seq<Missione>, t: int, m: Missione)
    requires 0 <= t < |ms|
    ensures NumCompletate(ms[t := m])
      == NumCompletate(ms) - (if ms[t].completata then 1 else 0) + (if m.completata then 1 else 0)
    decreases |ms|
  {
    var ms' := ms[t := m];
    var last := |ms| - 1;
    if t == last {
      assert ms'[..last] == ms[..last];
    } else {
      assert ms'[..last] == ms[..last][t := m];
      NumCompletateAggiorna(ms[..last], t, m);
    }
  }

  /** Every change keeps the invariant. */
  lemma ApplicaCoerente(g: GestoreMissioni, ev: Evento)
    requires Coerente(g)
    ensures Coerente(Applica(g, ev))
  {
    var r := Applica(g, ev);
    match ev
    case Completa(t) =>
      if TipoValido(t) && !g.missioni[t].completata {
        var g1 := g.(missioni := g.missioni[t := g.missioni[t].(completata := true)],
                     missioniCompletate := g.missioniCompletate + 1);
        NumCompletateAggiorna(g.missioni, t, g.missioni[t].(completata := true));
        assert g1.missioniCompletate == NumCompletate(g1.missioni);
        if TutteLePreliminariCompletate(g1) {
          var m3 := g1.missioni[CASTELLO];
          NumCompletateAggiorna(g1.missioni, CASTELLO, m3.(sbloccata := true));
        }
      }
    case Incrementa1(t) =>
      if TipoValido(t) {
        NumCompletateAggiorna(g.missioni, t, IncrementaObiettivi(g.missioni[t]));
      }
    case Recupera(t) =>
      if TipoValido(t) {
        NumCompletateAggiorna(g.missioni, t, SegnaOggettoRecuperato(g.missioni[t]));
      }
  }

  /** Applies a sequence of changes in order. */
  function ApplicaTutti(g: GestoreMissioni, evs: seq<Evento>): (r: GestoreMissioni)
    requires |g.missioni| == NUM_MISSIONI
    ensures |r.missioni| == NUM_MISSIONI
    decreases |evs|
  {
    if |evs| == 0 then g else ApplicaTutti(Applica(g, evs[0]), evs[1..])
  }

  /** From the initial state, whatever happens: the completed counter equals
      the number of completed missions, and the castle is unlocked exactly
      when the three preliminary missions are completed. */
  lemma {:induction false} RaggiungibileCoerente(evs: seq<Evento>)
    ensures Coerente(ApplicaTutti(InizializzaGestoreMissioni(), evs))
  {
    CoerenzaConservata(InizializzaGestoreMissioni(), evs);
  }

  lemma {:induction false} CoerenzaConservata(g: GestoreMissioni, evs: seq<Evento>)
    requires Coerente(g)
    ensures Coerente(ApplicaTutti(g, evs))
    decreases |evs|
  {
    if |evs| > 0 {
      ApplicaCoerente(g, evs[0]);
      CoerenzaConservata(Applica(g, evs[0]), evs[1..]);
    }
  }

  /** A completed or unlocked mission stays so through any sequence of
      changes. */
  lemma {:induction false} ApplicaTuttiAvanza(g: GestoreMissioni, evs: seq<Evento>)
    requires |g.missioni| == NUM_MISSIONI
    ensures Avanza(g, ApplicaTutti(g, evs))
    decreases |evs|
  {
    if |evs| > 0 {
      var g1 := Applica(g, evs[0]);
      ApplicaTuttiAvanza(g1, evs[1..]);
    }
  }

  // ---------------------------------------------------------------------
  // Mission menu and selection

  /** Offered in the menu: unlocked and not yet completed. */
  predicate Disponibile(m: Missione) {
    !m.completata && m.sbloccata
  }

  /** How many missions in `ms` are available. */
  function NumDisponibili(ms: seq<Missione>): nat {
    if |ms| == 0 then 0
    else NumDisponibili(ms[..|ms| - 1]) + (if Disponibile(ms[|ms| - 1]) then 1 else 0)
  }

  /** The count `mostraMenuMissioni` returns: one menu entry per available
      mission, in index order. */
  method MostraMenuMissioni(g: GestoreMissioni) returns (disponibili: int)
    requires |g.missioni| == NUM_MISSIONI
    ensures disponibili == NumDisponibili(g.missioni)
    ensures 0 <= disponibili <= NUM_MISSIONI
  {
    disponibili := 0;
    var i := 0;
    while i < NUM_MISSIONI
      invariant 0 <= i <= NUM_MISSIONI
      invariant disponibili == NumDisponibili(g.missioni[..i]) <= i
    {
      assert g.missioni[..i + 1][..i] == g.missioni[..i];
      if Disponibile(g.missioni[i]) {
        disponibili := disponibili + 1;
      }
      i := i + 1;
    }
    assert g.missioni[..i] == g.missioni;
  }

  /** `selezionaMissione` after the number `scelta` has been read: choice k
      in 1..available is the k-th available mission in index order; any
      other choice gives NESSUNA. */
  method SelezionaMissione(g: GestoreMissioni, scelta: int) returns (tipo: int)
    requires |g.missioni| == NUM_MISSIONI
    ensures !(1 <= scelta <= NumDisponibili(g.missioni)) ==> tipo == NESSUNA
    ensures 1 <= scelta <= NumDisponibili(g.missioni) ==>
      && TipoValido(tipo)
      && Disponibile(g.missioni[tipo])
      && NumDisponibili(g.missioni[..tipo]) == scelta - 1
  {
    var disponibili := MostraMenuMissioni(g);
    if disponibili == 0 {
      return NESSUNA;
    }
    if scelta < 1 || scelta > disponibili {
      return NESSUNA;
    }
    tipo := NESSUNA;
    assert g.missioni[..NUM_MISSIONI] == g.missioni;
    var contatore := 0;
    var i := 0;
    while i < NUM_MISSIONI
      invariant 0 <= i <= NUM_MISSIONI
      invariant contatore == NumDisponibili(g.missioni[..i])
      invariant contatore < scelta
    {
      assert g.missioni[..i + 1][..i] == g.missioni[..i];
      if Disponibile(g.missioni[i]) {
        contatore := contatore + 1;
        if contatore == scelta {
          return i;
        }
      }
      i := i + 1;
    }
  }

  /** The chosen mission is the only available one with scelta - 1
      available missions before it, so the mapping is one-to-one. */
  lemma SceltaUnica(ms: seq<Missione>, a: int, b: int)
    requires 0 <= a < |ms| && 0 <= b < |ms|
    requires Disponibile(ms[a]) && Disponibile(ms[b])
    requires NumDisponibili(ms[..a]) == NumDisponibili(ms[..b])
    ensures a == b
  {
    if a < b {
      NumDisponibiliCresce(ms, a, b);
    } else if b < a {
      NumDisponibiliCresce(ms, b, a);
    }
  }

  /** Passing an available mission raises the count of those before. */
  lemma {:induction false} NumDisponibiliCresce(ms: seq<Missione>, a: int, b: int)
    requires 0 <= a < b <= |ms| && Disponibile(ms[a])
    ensures NumDisponibili(ms[..b]) > NumDisponibili(ms[..a])
    decreases b - a
  {
    assert ms[..a + 1][..a] == ms[..a];
    if b > a + 1 {
      NumDisponibiliMonotono(ms, a + 1, b);
    }
  }

  lemma {:induction false} NumDisponibiliMonotono(ms: seq<Missione>, a: int, b: int)
    requires 0 <= a <= b <= |ms|
    ensures NumDisponibili(ms[..a]) <= NumDisponibili(ms[..b])
    decreases b - a
  {
    if a < b {
      assert ms[..b][..b - 1] == ms[..b - 1];
      NumDisponibiliMonotono(ms, a, b - 1);
    }
  }

  // ---------------------------------------------------------------------
  // Playing a mission and returning to the village

  datatype Ritorno = Gratuito | Pagamento | Rifiutato

  /** The return is free when the objectives are met and the mission is the
      castle or its item has been recovered. */
  predicate RitornoGratuito(m: Missione) {
    ObiettiviRaggiunti(m) && (m.tipo == CASTELLO || m.oggettoRecuperato)
  }

  /** Option 4 of the in-mission menu: free, 50 coins when the hero has
      them, refused otherwise. */
  function DecisioneRitorno(m: Missione, monete: int): (r: Ritorno)
    ensures r == Gratuito <==> RitornoGratuito(m)
    ensures r == Pagamento <==> !RitornoGratuito(m) && monete >= COSTO_RITORNO
    ensures r == Rifiutato <==> !RitornoGratuito(m) && monete < COSTO_RITORNO
  {
    if ObiettiviRaggiunti(m) && (m.tipo == CASTELLO || m.oggettoRecuperato) then Gratuito
    else if monete >= COSTO_RITORNO then Pagamento
    else Rifiutato
  }

  /** `mostraMenuDuranteMissione` prints "(Paga 50 Monete)" under this test;
      it is shown exactly when returning is not free. */
  function MostraCostoRitorno(m: Missione): (r: bool)
    ensures r <==> !RitornoGratuito(m)
    ensures forall monete :: r <==> DecisioneRitorno(m, monete) != Gratuito
  {
    !ObiettiviRaggiunti(m) || (m.tipo != CASTELLO && !m.oggettoRecuperato)
  }

  /** How a call of `eseguiMissione` stands after the keys read so far. */
  datatype Esecuzione =
    | NonDisponibile                                                  // refused at entry: returns false
    | InCorso(gestore: GestoreMissioni, eroe: Eroe)                     // still in the mission loop
    | Terminata(gestore: GestoreMissioni, eroe: Eroe, completata: bool) // left the loop; the return value

  /** The mission loop on keys `tasti`, each the first character of a
      non-empty line the `getchar` loop reads. Options 1-3 only
      print (exploration and shop are not written yet), so only option 4
      changes anything, and since nothing else changes the mission, a
      refused return stays refused. */
  function CicloMissione(g: GestoreMissioni, e: Eroe, tipo: int, tasti: seq<char>): (r: Esecuzione)
    requires |g.missioni| == NUM_MISSIONI && TipoValido(tipo)
    ensures !r.NonDisponibile?
    ensures r.Terminata? <==>
      '4' in tasti && DecisioneRitorno(g.missioni[tipo], e.monete) != Rifiutato
    ensures r.InCorso? ==> r.gestore == g && r.eroe == e
    decreases |tasti|
  {
    if |tasti| == 0 then InCorso(g, e)
    else if tasti[0] == '4' then
      match DecisioneRitorno(g.missioni[tipo], e.monete)
      case Gratuito =>
        var g' := CompletaMissione(g, tipo);
        Terminata(g'.(missioneCorrente := NESSUNA), e, g'.missioni[tipo].completata)
      case Pagamento =>
        Terminata(g.(missioneCorrente := NESSUNA), ModificaMonete(e, -COSTO_RITORNO),
                  g.missioni[tipo].completata)
      case Rifiutato =>
        CicloMissione(g, e, tipo, tasti[1..])
    else
      var r := CicloMissione(g, e, tipo, tasti[1..]);
      assert '4' in tasti[1..] <==> '4' in tasti by {
        assert tasti == [tasti[0]] + tasti[1..];
      }
      r
  }

  /** `eseguiMissione`: refuses a type outside 0..3, a locked mission or a
      completed one; otherwise makes it the current mission and runs the
      mission loop. Leaving for free completes the mission; leaving for a
      fee costs exactly 50 coins and does not. */
  function EseguiMissione(g: GestoreMissioni, e: Eroe, tipo: int, tasti: seq<char>): (r: Esecuzione)
    requires |g.missioni| == NUM_MISSIONI
    ensures r.NonDisponibile? <==>
      !TipoValido(tipo) || !g.missioni[tipo].sbloccata || g.missioni[tipo].completata
    ensures r.InCorso? ==> r.gestore == g.(missioneCorrente := tipo) && r.eroe == e
    ensures r.Terminata? ==>
      && r.gestore.missioneCorrente == NESSUNA
      && (r.completata <==> RitornoGratuito(g.missioni[tipo]))
      && (r.completata ==> r.gestore == CompletaMissione(g, tipo).(missioneCorrente := NESSUNA) && r.eroe == e)
      && (!r.completata ==> r.gestore == g.(missioneCorrente := NESSUNA)
                            && e.monete >= COSTO_RITORNO
                            && r.eroe == e.(monete := e.monete - COSTO_RITORNO))
  {
    if tipo < 0 || tipo > 3 then NonDisponibile
    else
      var m := g.missioni[tipo];
      if !m.sbloccata || m.completata then NonDisponibile
      else
        var r := CicloMissione(g.(missioneCorrente := tipo), e, tipo, tasti);
        CicloMissioneEsito(g.(missioneCorrente := tipo), e, tipo, tasti);
        r
  }

  /** What the mission loop returns when it ends: the free return completes
      the mission, the paid one charges 50 coins; both reset the current
      mission. */
  lemma {:induction false} CicloMissioneEsito(g: GestoreMissioni, e: Eroe, tipo: int, tasti: seq<char>)
    requires |g.missioni| == NUM_MISSIONI && TipoValido(tipo)
    ensures var r := CicloMissione(g, e, tipo, tasti);
      r.Terminata? ==>
        && r.gestore.missioneCorrente == NESSUNA
        && (RitornoGratuito(g.missioni[tipo]) ==>
              r.gestore == CompletaMissione(g, tipo).(missioneCorrente := NESSUNA)
              && r.eroe == e && r.completata)
        && (!RitornoGratuito(g.missioni[tipo]) ==>
              r.gestore == g.(missioneCorrente := NESSUNA)
              && e.monete >= COSTO_RITORNO
              && r.eroe == e.(monete := e.monete - COSTO_RITORNO)
              && r.completata == g.missioni[tipo].completata)
    decreases |tasti|
  {
    if |tasti| > 0 && !(tasti[0] == '4' && DecisioneRitorno(g.missioni[tipo], e.monete) != Rifiutato) {
      CicloMissioneEsito(g, e, tipo, tasti[1..]);
    }
  }

  /** The Swamp mission has numbered objectives and no item of its own, yet
      its free return also asks for the item: with all three generals
      defeated and no item recorded, leaving still costs 50 coins and does
      not complete it. */
  lemma PaludeRichiedeOggetto(m: Missione, monete: int)
    requires m.tipo == PALUDE && m.obiettiviTotali == 3 && m.obiettiviCompletati == 3
    requires !m.oggettoRecuperato
    ensures ObiettiviRaggiunti(m)
    ensures DecisioneRitorno(m, monete) != Gratuito
  {
  }
}

=== FILE: save_choice.dfy ===
/** The input check inside `chiediSalvataggioDaCaricare`: one line typed by
    the player is classified as going back, malformed, out of range, or the
    choice of a slot. The surrounding loop re-prompts on the two failures. */
module SaveChoice {
  import opened Common

  /** Key that goes back to the previous menu. */
  const INPUT_BACK := 'b'

  datatype Scelta =
    | Indietro              // 'b' typed: the function returns -1
    | NonValido             // empty, or a character that is neither a digit nor 'b'
    | FuoriIntervallo       // all digits, but not a slot number in 1..count
    | Slot(indice: int)     // a slot number in 1..count

  predicate Cifra(c: char) {
    '0' <= c <= '9'
  }

  ghost predicate TutteCifre(s: string) {
    forall i :: 0 <= i < |s| ==> Cifra(s[i])
  }

  /** The decimal value of a digit string, read left to right. */
  function ValoreDecimale(s: string): nat
    requires TutteCifre(s)
  {
    if |s| == 0 then 0
    else ValoreDecimale(s[..|s| - 1]) * 10 + (s[|s| - 1] as int - '0' as int)
  }

  /** A 'b' comes before the first character that is neither a digit nor 'b'. */
  ghost predicate RichiedeIndietro(s: string) {
    exists k :: 0 <= k < |s| && s[k] == INPUT_BACK && TutteCifre(s[..k])
  }

  /** What a line should mean: back exactly when a 'b' precedes the first
      character that is neither a digit nor 'b'; otherwise only a non-empty
      all-digit line naming a slot in 1..conta is a choice. */
  ghost function Classifica(s: string, conta: int): Scelta {
    if RichiedeIndietro(s) then Indietro
    else if |s| == 0 || !TutteCifre(s) then NonValido
    else if 1 <= ValoreDecimale(s) <= conta then Slot(ValoreDecimale(s))
    else FuoriIntervallo
  }

  /** Classifies what one `fgets` into the 16-byte buffer reads from the
      input `riga`, against the current slot count `conta`. */
  method ChiediSalvataggio(riga: string, conta: int) returns (r: Scelta)
    ensures r == Classifica(PrimaRiga(Fgets(riga, 16)), conta)
    ensures r == Classifica(Tronca(PrimaRiga(riga), 15), conta)
  {
    PrimaRigaDiFgets(riga, 16);
    r := ClassificaRiga(PrimaRiga(Fgets(riga, 16)), conta);
  }

  /** The scan of one line `input`, already cut at its newline: a 'b' goes
      back, another non-digit stops the scan, and an all-digit line is
      converted and range-checked. */
  method ClassificaRiga(input: string, conta: int) returns (r: Scelta)
    ensures r == Classifica(input, conta)
  {
    var valido := true;
    var i := 0;
    while i < |input|
      invariant 0 <= i <= |input|
      invariant TutteCifre(input[..i])
      invariant forall k :: 0 <= k < i ==> input[k] != INPUT_BACK
      invariant valido
    {
      if input[i] == INPUT_BACK {
        assert RichiedeIndietro(input);
        return Indietro;
      } else if !Cifra(input[i]) {
        valido := false;
        break;
      }
      assert input[..i + 1] == input[..i] + [input[i]];
      i := i + 1;
    }
    if !valido {
      NessunIndietroDopoNonCifra(input, i);
      return NonValido;
    }
    assert input[..i] == input;
    NessunIndietroSeTutteCifre(input);
    if |input| == 0 {
      return NonValido;
    }
    var scelta := Atoi(input);
    if scelta < 1 || scelta > conta {
      return FuoriIntervallo;
    }
    return Slot(scelta);
  }

  /** `atoi` on a string of digits: accumulates value * 10 + digit. */
  method Atoi(s: string) returns (v: nat)
    requires TutteCifre(s)
    ensures v == ValoreDecimale(s)
  {
    v := 0;
    var i := 0;
    while i < |s|
      invariant 0 <= i <= |s|
      invariant TutteCifre(s[..i])
      invariant v == ValoreDecimale(s[..i])
    {
      assert s[..i + 1][..i] == s[..i];
      v := v * 10 + (s[i] as int - '0' as int);
      i := i + 1;
    }
    assert s[..i] == s;
  }

  /** When the scan stops at a character that is neither a digit nor 'b',
      no 'b' came before it, and none after it is reached. */
  lemma NessunIndietroDopoNonCifra(s: string, i: int)
    requires 0 <= i < |s| && !Cifra(s[i]) && s[i] != INPUT_BACK
    requires forall k :: 0 <= k < i ==> s[k] != INPUT_BACK
    ensures !RichiedeIndietro(s)
    ensures !TutteCifre(s)
  {
  }

  /** An all-digit line never asks to go back. */
  lemma NessunIndietroSeTutteCifre(s: string)
    requires TutteCifre(s)
    ensures !RichiedeIndietro(s)
  {
  }
}

=== FILE: saves.dfy ===
/** The save-slot repository of `salvataggi.c`. The slot directory is a map
    from a slot index to the record stored in `salvataggi/save<index>.dat`;
    an index is a key exactly when its file exists. Records are written and
    read whole, as the raw struct is; no checksum is computed or checked. */
module Saves {
  import opened Common
  import opened Hero

  /** `char nome[MAX_NOME_EROE]`: at most 24 characters before the terminator. */
  type NomeSalvataggio = s: string | |s| < MAX_NOME_EROE

  datatype Salvataggio = Salvataggio(
    dataSalvataggio: int,
    nome: NomeSalvataggio,
    vita: int,
    monete: int,
    oggettiPosseduti: int,
    missioniCompletate: int,
    crc32: bv32)

  /** The slot directory: slot index to stored record. */
  type Cartella = map<int, Salvataggio>

  // ---------------------------------------------------------------------
  // Counting

  /** How many consecutive slots k, k + 1, ... exist. */
  function SerieDa(d: Cartella, k: int): (n: nat)
    ensures forall j :: k <= j < k + n ==> j in d
    ensures k + n !in d
    decreases |d|
  {
    if k in d then
      var rest := d - {k};
      assert |rest| < |d| by {
        assert rest.Keys == d.Keys - {k};
      }
      var n' := SerieDa(rest, k + 1);
      assert forall j :: j in rest ==> j in d;
      1 + n'
    else 0
  }

  /** `contaSalvataggi`: probes save1, save2, ... and stops at the first
      missing file; a slot past that gap is never counted. */
  function ContaSalvataggi(d: Cartella): (n: nat)
    ensures forall j :: 1 <= j <= n ==> j in d
    ensures n + 1 !in d
    ensures forall g :: 1 <= g && g !in d ==> n < g
  {
    SerieDa(d, 1)
  }

  /** The count is the one N with slots 1..N present and slot N + 1 absent. */
  lemma ContaUnica(d: Cartella, n: nat)
    requires forall j :: 1 <= j <= n ==> j in d
    requires n + 1 !in d
    ensures ContaSalvataggi(d) == n
  {
  }

  /** The directory holds exactly the slots 1..n. */
  ghost predicate Contigua(d: Cartella, n: nat) {
    forall k :: k in d <==> 1 <= k <= n
  }

  /** No two slots hold records with the same name. */
  predicate NomiDistinti(d: Cartella) {
    forall i, j :: i in d && j in d && i != j ==> d[i].nome != d[j].nome
  }

  lemma ContaContigua(d: Cartella, n: nat)
    requires Contigua(d, n)
    ensures ContaSalvataggi(d) == n
  {
    ContaUnica(d, n);
  }

  // ---------------------------------------------------------------------
  // Upsert by name

  /** Slot i holds a record named `nome` and is the first such slot. */
  predicate PrimoConNome(d: Cartella, nome: string, i: int) {
    && i in d
    && d[i].nome == nome
    && forall j :: 1 <= j < i && j in d ==> d[j].nome != nome
  }

  /** No slot among 1..n holds a record named `nome`. */
  predicate NessunoConNome(d: Cartella, nome: string, n: int) {
    forall j :: 1 <= j <= n && j in d ==> d[j].nome != nome
  }

  /** The scan of `salvaGioco`: the first slot among i..fine whose record's
      name compares equal to `nome`. */
  function PrimaCorrispondenza(d: Cartella, nome: string, i: int, fine: int): (r: Option<int>)
    ensures r.Some? ==> i <= r.value <= fine && r.value in d && d[r.value].nome == nome
    ensures r.Some? ==> forall j :: i <= j < r.value && j in d ==> d[j].nome != nome
    ensures r.None? ==> forall j :: i <= j <= fine && j in d ==> d[j].nome != nome
    decreases fine - i
  {
    if i > fine then None
    else if i in d && Strcmp(d[i].nome, nome) == 0 then Some(i)
    else PrimaCorrispondenza(d, nome, i + 1, fine)
  }

  /** `salvaGioco`: overwrites the first counted slot whose record has the
      same name; with no such slot, writes slot count + 1. The record is
      stored as given (its timestamp is whatever the caller put in it). */
  function SalvaGioco(d: Cartella, s: Salvataggio): (d': Cartella)
    ensures forall i :: 1 <= i <= ContaSalvataggi(d) && PrimoConNome(d, s.nome, i) ==> d' == d[i := s]
    ensures NessunoConNome(d, s.nome, ContaSalvataggi(d)) ==> d' == d[ContaSalvataggi(d) + 1 := s]
  {
    var n := ContaSalvataggi(d);
    match PrimaCorrispondenza(d, s.nome, 1, n)
    case Some(i) => d[i := s]
    case None => d[n + 1 := s]
  }

  /** An update leaves the count alone; an append adds the new slot and
      joins whatever run of files lay just past the old gap. */
  lemma SalvaGiocoConta(d: Cartella, s: Salvataggio)
    ensures !NessunoConNome(d, s.nome, ContaSalvataggi(d)) ==>
      ContaSalvataggi(SalvaGioco(d, s)) == ContaSalvataggi(d)
    ensures NessunoConNome(d, s.nome, ContaSalvataggi(d)) ==>
      ContaSalvataggi(SalvaGioco(d, s)) == ContaSalvataggi(d) + 1 + SerieDa(d, ContaSalvataggi(d) + 2)
    ensures NessunoConNome(d, s.nome, ContaSalvataggi(d)) && ContaSalvataggi(d) + 2 !in d ==>
      ContaSalvataggi(SalvaGioco(d, s)) == ContaSalvataggi(d) + 1
  {
    var n := ContaSalvataggi(d);
    var d' := SalvaGioco(d, s);
    match PrimaCorrispondenza(d, s.nome, 1, n)
    case Some(i) =>
      assert d' == d[i := s];
      ContaUnica(d', n);
    case None =>
      assert d' == d[n + 1 := s];
      var m := SerieDa(d, n + 2);
      ContaUnica(d', n + 1 + m);
  }

  /** On a directory holding exactly 1..N with distinct names, saving keeps
      it gap-free (1..N after an update, 1..N+1 after an append) and keeps
      the names distinct. */
  lemma {:induction false} SalvaGiocoInvariante(d: Cartella, s: Salvataggio, n: nat)
    requires Contigua(d, n) && NomiDistinti(d)
    ensures NessunoConNome(d, s.nome, n) ==> Contigua(SalvaGioco(d, s), n + 1)
    ensures !NessunoConNome(d, s.nome, n) ==> Contigua(SalvaGioco(d, s), n)
    ensures NomiDistinti(SalvaGioco(d, s))
  {
    ContaContigua(d, n);
    var d' := SalvaGioco(d, s);
    match PrimaCorrispondenza(d, s.nome, 1, n)
    case Some(i) =>
      assert d' == d[i := s];
      forall a, b | a in d' && b in d' && a != b
        ensures d'[a].nome != d'[b].nome
      {
        if a == i {
          assert d[b].nome != d[i].nome;
        } else if b == i {
          assert d[a].nome != d[i].nome;
        }
      }
    case None =>
      assert d' == d[n + 1 := s];
  }

  /** Saving twice under one name is the same as saving the second record
      once: the second save finds the slot the first one wrote. */
  lemma SalvaGiocoDueVolte(d: Cartella, s1: Salvataggio, s2: Salvataggio)
    requires s1.nome == s2.nome
    ensures SalvaGioco(SalvaGioco(d, s1), s2) == SalvaGioco(d, s2)
    ensures ContaSalvataggi(SalvaGioco(SalvaGioco(d, s1), s2)) == ContaSalvataggi(SalvaGioco(d, s1))
  {
    var n := ContaSalvataggi(d);
    var d1 := SalvaGioco(d, s1);
    SalvaGiocoConta(d, s1);
    var n1 := ContaSalvataggi(d1);
    match PrimaCorrispondenza(d, s1.nome, 1, n)
    case Some(i) =>
      assert d1 == d[i := s1];
      assert !NessunoConNome(d, s1.nome, n) by { assert d[i].nome == s1.nome; }
      assert PrimoConNome(d1, s2.nome, i);
      assert SalvaGioco(d1, s2) == d1[i := s2] == d[i := s2];
      assert PrimoConNome(d, s2.nome, i);
      SalvaGiocoConta(d1, s2);
      assert !NessunoConNome(d1, s2.nome, n1) by { assert d1[i].nome == s2.nome; }
    case None =>
      assert d1 == d[n + 1 := s1];
      assert n + 1 <= n1;
      assert PrimoConNome(d1, s2.nome, n + 1);
      assert SalvaGioco(d1, s2) == d1[n + 1 := s2] == d[n + 1 := s2];
      SalvaGiocoConta(d1, s2);
      assert !NessunoConNome(d1, s2.nome, n1) by { assert d1[n + 1].nome == s2.nome; }
  }

  /** After a save, the saved record can be read back from a counted slot. */
  lemma SalvaGiocoPoiLeggi(d: Cartella, s: Salvataggio)
    ensures exists i :: (1 <= i <= ContaSalvataggi(SalvaGioco(d, s))
                         && LeggiSalvataggioIndice(SalvaGioco(d, s), i) == Some(s))
  {
    var n := ContaSalvataggi(d);
    var d' := SalvaGioco(d, s);
    SalvaGiocoConta(d, s);
    match PrimaCorrispondenza(d, s.nome, 1, n)
    case Some(i) =>
      assert LeggiSalvataggioIndice(d', i) == Some(s);
    case None =>
      assert LeggiSalvataggioIndice(d', n + 1) == Some(s);
  }

  /** Name uniqueness rests on the directory being gap-free: with save1 and
      save3 present and save2 missing, only slot 1 is scanned, so saving the
      name held in save3 writes save2 and two slots share a name. */
  lemma SalvaOltreBucoDuplicaNome(a: Salvataggio, b: Salvataggio)
    requires a.nome != b.nome
    ensures !NomiDistinti(SalvaGioco(map[1 := a, 3 := b], b))
  {
    var d := map[1 := a, 3 := b];
    ContaUnica(d, 1);
    assert NessunoConNome(d, b.nome, 1);
    var d' := SalvaGioco(d, b);
    assert d' == d[2 := b];
    assert d'[2].nome == d'[3].nome;
  }

  // ---------------------------------------------------------------------
  // Read by index

  /** `leggiSalvataggioIndice`: the stored record, or failure for an index
      below 1 or a missing file. */
  function LeggiSalvataggioIndice(d: Cartella, idx: int): (r: Option<Salvataggio>)
    ensures r.Some? <==> 1 <= idx && idx in d
    ensures r.Some? ==> r.value == d[idx]
  {
    if idx <= 0 then None
    else if idx !in d then None
    else Some(d[idx])
  }

  // ---------------------------------------------------------------------
  // Delete with compaction

  /** `rename(from, to)`: moves the file when it exists; otherwise fails and
      leaves the directory as it was (the game ignores the result). */
  function Rinomina(d: Cartella, from: int, to: int): (r: Cartella)
    ensures from !in d ==> r == d
    ensures from in d ==> to in r && r[to] == d[from]
    ensures from in d && from != to ==> from !in r
    ensures forall j :: j != from && j != to ==> (j in r <==> j in d)
  {
    if from in d then (d - {from})[to := d[from]] else d
  }

  /** d' is d with slot idx removed and the slots idx + 1..total moved down
      one place; slots past max(idx, total) are untouched. */
  ghost predicate Compattata(d: Cartella, d': Cartella, idx: int, total: int) {
    var top := Max(idx, total);
    && (forall j :: j < idx ==> (j in d' <==> j in d))
    && (forall j :: j < idx && j in d ==> d'[j] == d[j])
    && (forall j :: idx <= j < top ==> j in d' && j + 1 in d && d'[j] == d[j + 1])
    && top !in d'
    && (forall j :: j > top ==> (j in d' <==> j in d))
    && (forall j :: j > top && j in d ==> d'[j] == d[j])
  }

  /** The state of the rename loop before it handles slot i: slot idx is
      gone, slots idx + 1..i - 1 have moved down one place, slot i - 1 is
      free and everything else is as it was. */
  ghost predicate SpostamentoParziale(d: Cartella, d': Cartella, idx: int, i: int) {
    && (forall j :: j < idx ==> (j in d' <==> j in d))
    && (forall j :: j < idx && j in d ==> d'[j] == d[j])
    && (forall j :: idx <= j < i - 1 ==> j in d' && j + 1 in d && d'[j] == d[j + 1])
    && i - 1 !in d'
    && (forall j :: j >= i ==> (j in d' <==> j in d))
    && (forall j :: j >= i && j in d ==> d'[j] == d[j])
  }

  /** One `rename(save(i), save(i-1))` of the loop moves the frontier on. */
  lemma RinominaPasso(d: Cartella, d': Cartella, idx: int, i: int)
    requires idx < i && i in d
    requires SpostamentoParziale(d, d', idx, i)
    ensures SpostamentoParziale(d, Rinomina(d', i, i - 1), idx, i + 1)
  {
    assert i in d' && d'[i] == d[i];
    var d'' := Rinomina(d', i, i - 1);
    RinominaEffetto(d', i, i - 1);
    forall j | idx <= j < i
      ensures j in d'' && j + 1 in d && d''[j] == d[j + 1]
    {
      if j < i - 1 {
        assert j in d' && d'[j] == d[j + 1];
      }
    }
  }

  /** What a successful rename does, key by key. */
  lemma RinominaEffetto(d: Cartella, from: int, to: int)
    requires from in d && from != to
    ensures forall j :: j in Rinomina(d, from, to) <==> j == to || (j in d && j != from)
    ensures Rinomina(d, from, to)[to] == d[from]
    ensures forall j :: j in d && j != from && j != to ==> Rinomina(d, from, to)[j] == d[j]
  {
  }

  /** Removing slot idx starts the loop: nothing has moved yet. */
  lemma SpostamentoIniziale(d: Cartella, idx: int)
    requires idx in d
    ensures SpostamentoParziale(d, d - {idx}, idx, idx + 1)
  {
  }

  /** Once the frontier is past max(idx, total), the shift is complete. */
  lemma SpostamentoCompleto(d: Cartella, d': Cartella, idx: int, total: int)
    requires SpostamentoParziale(d, d', idx, Max(idx, total) + 1)
    ensures Compattata(d, d', idx, total)
  {
  }

  /** `eliminaSalvataggio`: fails, changing nothing, for an index below 1 or
      a missing file; otherwise removes the file and renames save(i) to
      save(i-1) for i = idx + 1 .. count, counted before the removal. */
  method EliminaSalvataggio(d: Cartella, idx: int) returns (ok: bool, d': Cartella)
    ensures ok <==> 1 <= idx && idx in d
    ensures !ok ==> d' == d
    ensures ok ==> Compattata(d, d', idx, ContaSalvataggi(d))
  {
    if idx <= 0 {
      return false, d;
    }
    var totalePrima := ContaSalvataggi(d);
    if idx !in d {
      return false, d;
    }
    d' := d - {idx};
    SpostamentoIniziale(d, idx);
    var i := idx + 1;
    while i <= totalePrima
      invariant idx + 1 <= i <= Max(idx, totalePrima) + 1
      invariant SpostamentoParziale(d, d', idx, i)
    {
      RinominaPasso(d, d', idx, i);
      d' := Rinomina(d', i, i - 1);
      i := i + 1;
    }
    SpostamentoCompleto(d, d', idx, totalePrima);
    ok := true;
  }

  /** On a directory holding exactly 1..N, deleting slot idx in 1..N leaves
      exactly 1..N-1: slots below idx keep their records and slot j >= idx
      holds the record that was in slot j + 1. */
  lemma EliminaCompatta(d: Cartella, d': Cartella, idx: int, n: nat)
    requires Contigua(d, n) && 1 <= idx <= n
    requires Compattata(d, d', idx, ContaSalvataggi(d))
    ensures Contigua(d', n - 1)
    ensures forall j :: 1 <= j < idx ==> d'[j] == d[j]
    ensures forall j :: idx <= j < n ==> d'[j] == d[j + 1]
  {
    ContaContigua(d, n);
  }

  /** Deleting a counted slot lowers the count by exactly one, whatever lies
      past the first gap. */
  lemma EliminaConta(d: Cartella, d': Cartella, idx: int)
    requires 1 <= idx <= ContaSalvataggi(d)
    requires Compattata(d, d', idx, ContaSalvataggi(d))
    ensures ContaSalvataggi(d') == ContaSalvataggi(d) - 1
  {
    var n := ContaSalvataggi(d);
    forall j | 1 <= j <= n - 1
      ensures j in d'
    {
      if j >= idx {
        assert idx <= j < n;
      }
    }
    ContaUnica(d', n - 1);
  }

  /** Compaction only moves records, so distinct names stay distinct. */
  lemma EliminaNomiDistinti(d: Cartella, d': Cartella, idx: int, total: int)
    requires NomiDistinti(d)
    requires Compattata(d, d', idx, total)
    ensures NomiDistinti(d')
  {
    var top := Max(idx, total);
    // The slot of d that each slot of d' came from.
    var origine := (j: int) => if idx <= j < top then j + 1 else j;
    forall j | j in d'
      ensures origine(j) in d && d'[j] == d[origine(j)]
    {
      if j < idx {
      } else if j < top {
      } else {
        assert j != top;
      }
    }
    forall a, b | a in d' && b in d' && a != b
      ensures d'[a].nome != d'[b].nome
    {
      assert origine(a) != origine(b);
    }
  }

  // ---------------------------------------------------------------------
  // Conversion between hero and record

  /** `creaSalvataggioDaEroe`: copies the hero's name and counters, stamps
      the record with the time `ora` and leaves the checksum field zero.
      Reading the hero back gives the same hero. */
  function CreaSalvataggioDaEroe(e: Eroe, ora: int): (s: Salvataggio)
    requires |e.nome| < MAX_NOME_EROE
    ensures CreaEroeDaSalvataggio(s) == e
    ensures s.dataSalvataggio == ora
    ensures s.crc32 == 0
  {
    Salvataggio(ora, e.nome, e.vita, e.monete, e.oggettiPosseduti, e.missioniCompletate, 0)
  }

  /** `creaEroeDaSalvataggio`: the hero held in a record; only the timestamp
      and the checksum field are not carried over. */
  function CreaEroeDaSalvataggio(s: Salvataggio): (e: Eroe)
    ensures |e.nome| < MAX_NOME_EROE
  {
    Eroe(s.nome, s.vita, s.monete, s.missioniCompletate, s.oggettiPosseduti)
  }

  /** The other direction of the round trip: turning a record into a hero and
      back, at the record's own time, loses only the checksum field. */
  lemma EroeSalvataggioAndataRitorno(s: Salvataggio)
    ensures CreaSalvataggioDaEroe(CreaEroeDaSalvataggio(s), s.dataSalvataggio) == s.(crc32 := 0)
  {
  }
}
